=== FILE: README.md ===
# Right-of-use asset depreciation calculator: a Dafny model

This project models the calculation core of a lease right-of-use (ROU) asset
calculator. The calculator does three things:

- It discounts a stream of equal lease payments to their present value. This
  is an ordinary annuity with `int(term * frequency)` periods. The payment of
  period t is divided by `(1 + rate / frequency)^t`.
- It adds the initial direct costs to get the asset's initial value.
- It writes off `initial - residual` in equal monthly charges over
  `int(term * 12)` months. Each schedule row is dated 30 days after the
  previous one and shows the running book value and the charge, each rounded
  to cents.

All arithmetic is on Dafny `real`, so it is exact. Python's `int()` is modelled
as truncation toward zero (`Numeric.Trunc`). `round(x, 2)` is modelled as
round-half-to-even at two decimals of the exact value (`Numeric.Round2`).
`b ** t` is `Numeric.Pow`. Dates are integer day numbers. Apart from date
overflow (see "## Left out"), on exact reals the only exception the code can
raise is `ZeroDivisionError`. It is the
`Err(DivisionByZero)` case of `Results.Result`. The program's float arithmetic
can also overflow or underflow; see "## Left out".

Files:

- `results.dfy`: the error and result types.
- `numeric.dfy`: truncation, powers and rounding.
- `present_value.dfy` (module `Discounting`): present value of the payments.
- `depreciation.dfy`: the monthly charge and the schedule.
- `calculator.dfy`: the button handler's glue, the frequency choices and the
  form's input bounds.

Behaviour of the code worth knowing:

- A payment frequency of 0 does not raise. `int(term * 0)` is 0 periods, so
  the discounting loop never divides.
- Discounting fails only when at least one period is discounted and
  `rate == -frequency`, because then the per-period factor is 0.
- A zero-month term raises before any row is built. A negative month count
  gives an empty schedule, because `range` of a negative number is empty.
  Through the form, neither can happen: the form's minimum term of 0.1 years
  gives `int(1.2) = 1` month (`Calculator.FormTermHasAMonth`).
- For the form's default lease, row 0 shows 425731.87. The code rounds the
  unrounded difference `initial - monthly`. Subtracting the two rounded
  amounts (432947.67 - 7215.79) would give 425731.88 instead.
- The periods are truncated, so with a zero rate the present value is
  `payment * int(term * frequency)`. It is not `payment * term * frequency`.

## Model

| member | source | states |
|---|---|---|
| `Numeric.Trunc` | rou_depreciation_app.py:8 | `int(x)` truncates toward zero: for x >= 0 the result is the largest integer not above x; for negative x it is the smallest integer not below x |
| `Numeric.RoundHalfEven` | rou_depreciation_app.py:28-29 | the result is an integer within 1/2 of y, and an exact tie goes to the even neighbour |
| `Numeric.Round2` | rou_depreciation_app.py:28-29 | `round(x, 2)` is a whole number of cents within 0.005 of x, and an exact tie goes to the even cent |
| `Numeric.Round2Monotone` | rou_depreciation_app.py:28 | rounding to cents never reverses the order of two values |
| `Numeric.Round2OfHundredths` | rou_depreciation_app.py:28-29 | a value that already has two decimals is unchanged by rounding |
| `Numeric.Pow` | rou_depreciation_app.py:11 | `b ** t` for a whole exponent t >= 0: 1 when t is 0, otherwise b times b^(t-1) |
| `Numeric.PowStrictlyIncreasing` | rou_depreciation_app.py:11 | for positive bases and t >= 1, `b ** t` strictly increases with b |
| `Discounting.Periods` | rou_depreciation_app.py:8 | the number of payment periods is `int(term * frequency)`, truncated toward zero |
| `Discounting.PaidPeriods` | rou_depreciation_app.py:10 | `range(1, periods + 1)` discounts `max(periods, 0)` payments |
| `Discounting.Annuity` | rou_depreciation_app.py:9-11 | the loop's accumulator: starting from 0, it adds `payment / base^t` for t = 1..n in the loop's order; defined for a non-zero base |
| `Discounting.PresentValue` | rou_depreciation_app.py:7-12 | with no whole period the value is 0; on exact reals it fails exactly when a period is discounted and `1 + rate/frequency` is 0; otherwise it is the sum over t = 1..`int(term*frequency)` of `payment / (1 + rate/frequency)^t` |
| `Discounting.AnnuityAtParIsPaymentTimesPeriods` | rou_depreciation_app.py:10-11 | undiscounted (factor 1), n payments sum to `payment * n` |
| `Discounting.ZeroRatePresentValue` | rou_depreciation_app.py:8-11 | at rate 0 the present value is `payment * max(int(term*frequency), 0)` for every frequency, 0 included |
| `Discounting.AnnuityBounds` | rou_depreciation_app.py:10-11 | with payment >= 0 and factor >= 1 the sum lies between 0 and `payment * n` |
| `Discounting.PresentValueBounds` | rou_depreciation_app.py:7-12 | with payment >= 0, rate >= 0 and frequency > 0 the discounting succeeds and lies between 0 and the undiscounted total |
| `Discounting.AnnuityStrictlyDecreasingInBase` | rou_depreciation_app.py:10-11 | for payment > 0 and n >= 1, a larger positive factor gives a strictly smaller sum |
| `Discounting.PresentValueStrictlyDecreasingInRate` | rou_depreciation_app.py:7-12 | with the other inputs fixed and at least one period, a higher rate (above `-frequency`) gives a strictly lower present value |
| `Discounting.AnnuityGeometric` | rou_depreciation_app.py:10-11 | the sum satisfies the geometric-series identity `A * (b - 1) * b^n == payment * (b^n - 1)` |
| `Discounting.AnnuityClosedForm` | rou_depreciation_app.py:10-11 | for a per-period rate i other than 0 and -1, the sum with factor `1 + i` equals `payment * (1 - (1+i)^-n) / i` |
| `Discounting.PresentValueClosedForm` | rou_depreciation_app.py:7-12 | for a non-zero rate the loop's result equals the textbook annuity formula `payment * (1 - (1+i)^-n) / i` with `i = rate/frequency` |
| `Depreciation.MonthlyDepreciation` | rou_depreciation_app.py:14-16 | defined only for a non-zero month count; the charge times the number of months gives back `initial - residual` |
| `Depreciation.RunningValues` | rou_depreciation_app.py:20-25 | the running value after month k's subtraction is `initial - (k+1) * monthly`, and there is one value per month |
| `Depreciation.RowCount` | rou_depreciation_app.py:23 | `range(lease_term_months)` yields `max(months, 0)` rows |
| `Depreciation.Rows` | rou_depreciation_app.py:23-30 | one row per month; row m is dated `start + 30*m`, shows `round(initial - (m+1)*monthly, 2)` and the same rounded charge on every row |
| `Depreciation.Schedule` | rou_depreciation_app.py:18-32 | fails exactly when the month count is 0; otherwise has `max(months, 0)` rows with the dates, book values and constant charge given by the closed form |
| `Depreciation.ScheduleEndsAtResidual` | rou_depreciation_app.py:19-25 | with months > 0 the last row shows the residual value rounded to cents |
| `Depreciation.RowsNonIncreasing` | rou_depreciation_app.py:25-28 | with a non-negative charge no row's book value exceeds an earlier row's |
| `Depreciation.ScheduleNonIncreasing` | rou_depreciation_app.py:18-28 | when the initial value is at least the residual, the book values never rise down the schedule |
| `Calculator.PaymentsPerYear` | rou_depreciation_app.py:45-47 | every frequency choice gives a positive number of payments per year, so the form never reaches the zero-frequency path; that the number also divides 12 is a fact about the map's values, not something the code relies on |
| `Calculator.FormBounds` | rou_depreciation_app.py:50-58 | the form's limits: payment >= 0, term >= 0.1 years, rate between 0 and 100 percent, residual >= 0, direct costs >= 0 |
| `Calculator.TermMonths` | rou_depreciation_app.py:61 | the term in months is `int(term * 12)`, truncated toward zero |
| `Calculator.AnnualRate` | rou_depreciation_app.py:56 | the rate entered in percent, divided by 100 |
| `Calculator.PaymentsValue` | rou_depreciation_app.py:64 | the present value of the inputs' payments, at the annual rate and the chosen frequency |
| `Calculator.Calculate` | rou_depreciation_app.py:61-67 | fails exactly when discounting or the monthly split divides by zero; otherwise the present value is the discounted payments, the initial value is present value plus direct costs, total depreciation is initial minus residual, the monthly figure times the month count is the total, and the schedule is the one built from the initial value |
| `Calculator.SummaryAgreesWithSchedule` | rou_depreciation_app.py:84-85 | whenever the calculation succeeds with at least one month, the summary's separately computed monthly figure, rounded, is the charge on every row, the schedule has `int(term*12)` rows and its last row is the rounded residual |
| `Calculator.FormTermHasAMonth` | rou_depreciation_app.py:61 | a term of at least 0.1 years gives at least one month |
| `Calculator.FormInputsSucceed` | rou_depreciation_app.py:50-58 | on exact reals, every input the form accepts gives a full result: at least one row, a present value between 0 and the undiscounted payments, and a last row equal to the rounded residual |
| `Calculator.BookValueNonIncreasing` | rou_depreciation_app.py:65-67 | whenever the calculation succeeds with at least one month and the initial value is at least the residual, the book value column never rises |
| `Calculator.DefaultLease` | rou_depreciation_app.py:45-67 | the default lease (100000 a year, 5 years, 5%, no residual or direct costs) gives present value 432947.67, charge 7215.79, 60 rows, row 0 at 425731.87 and row 59 at 0.00, dated 1770 days after the start |

## Left out

- The Streamlit page: titles, columns, widgets, the button and the `st.write` lines. Only the frequency map and the widgets' minimums and maximum are kept, as `Calculator.PaymentsPerYear` and `Calculator.FormBounds`.
- The CSV download link, the pandas DataFrame and the Plotly chart. They are library calls that only present the schedule.
- `strftime` formatting and the column labels. A row holds a day number and two plain fields.
- The current date as the default start date. The start date is a parameter.
- Date arithmetic past `datetime`'s year range. `start_date + timedelta(days=30*month)` at rou_depreciation_app.py:24 raises `OverflowError` once a row's date passes year 9999, at any rate, and the form has no maximum term. Day numbers are unbounded.
- Float overflow and underflow of `(1 + rate / frequency) ** t` at rou_depreciation_app.py:11. A large power raises `OverflowError`; the form accepts such input (rate 100 %, annual, 1100 years). For a base strictly between -1 and 1 the power can underflow to 0.0, and the division then raises `ZeroDivisionError`.
- Discounting.PresentValue: fails only when the exact base is 0. It returns a value where the float power overflows or underflows to 0.0 and the program raises.
- Calculator.FormInputsSucceed: promises a result for every input within the form's limits. That holds on exact reals; the program can still raise `OverflowError` for a very long term at a high rate (:11) or, at any rate, for a term long enough that a row's date passes year 9999 (:24).
- Binary floating point. Values such as `0.1 * 12`, drift in the running subtraction and drift in the discounting sum are not modelled. All sums are exact, so the last row is exactly the rounded residual.
- `Numeric.Round2` rounds ties of the exact real value to even. Python rounds the float's binary value, so a decimal such as 2.675, stored as slightly less, can round differently.
- `Calculator.PaymentsPerYear`: the contract states only that each choice gives a positive divisor of 12. The exact values 1, 2, 4 and 12 are in its body.

=== FILE: calculator.dfy ===
/** The calculation behind the "calculate depreciation" button: discount the
    payments, add the initial direct costs, build the schedule and derive the
    summary figures. */
module Calculator {
  import opened Results
  import opened Numeric
  import opened Discounting
  import opened Depreciation

  /** The payment-frequency choices of the form. */
  datatype Frequency = Annual | SemiAnnual | Quarterly | Monthly

  /** Payments per year for each choice. */
  function PaymentsPerYear(f: Frequency): (n: int)
    ensures n > 0 && 12 % n == 0
  {
    match f
    case Annual => 1
    case SemiAnnual => 2
    case Quarterly => 4
    case Monthly => 12
  }

  /** What the form collects.  The discount rate is entered in percent;
      dates are day numbers. */
  datatype LeaseInputs = LeaseInputs(
    frequency: Frequency,
    payment: real,
    termYears: real,
    startDate: int,
    ratePercent: real,
    residual: real,
    directCosts: real)

  /** The minimums and maximum the form's number fields enforce. */
  predicate FormBounds(inputs: LeaseInputs)
  {
    && inputs.payment >= 0.0
    && inputs.termYears >= 0.1
    && 0.0 <= inputs.ratePercent <= 100.0
    && inputs.residual >= 0.0
    && inputs.directCosts >= 0.0
  }

  /** Term in whole months: `int(term * 12)`. */
  function TermMonths(termYears: real): int
  {
    Trunc(termYears * 12.0)
  }

  /** The annual discount rate as a fraction. */
  function AnnualRate(inputs: LeaseInputs): real
  {
    inputs.ratePercent / 100.0
  }

  function PaymentsValue(inputs: LeaseInputs): Result<real>
  {
    PresentValue(inputs.payment, AnnualRate(inputs), PaymentsPerYear(inputs.frequency), inputs.termYears)
  }

  /** Everything the button handler computes and shows. */
  datatype Calculation = Calculation(
    presentValue: real,
    directCosts: real,
    initialValue: real,
    schedule: seq<Entry>,
    totalDepreciation: real,
    monthlyDepreciation: real)

  /** The whole calculation.  It fails, with nothing produced, exactly when
      discounting or the monthly split divides by zero. */
  function Calculate(inputs: LeaseInputs): (r: Result<Calculation>)
    ensures r.Err? <==> PaymentsValue(inputs).Err? || TermMonths(inputs.termYears) == 0
    ensures r.Ok? ==>
              && PaymentsValue(inputs) == Ok(r.value.presentValue)
              && r.value.directCosts == inputs.directCosts
              && r.value.initialValue == r.value.presentValue + inputs.directCosts
              && r.value.totalDepreciation == r.value.initialValue - inputs.residual
              && r.value.monthlyDepreciation * TermMonths(inputs.termYears) as real == r.value.totalDepreciation
              && Schedule(r.value.initialValue, inputs.residual, TermMonths(inputs.termYears), inputs.startDate)
                   == Ok(r.value.schedule)
  {
    var months := TermMonths(inputs.termYears);
    var pv :- PaymentsValue(inputs);
    var initial := pv + inputs.directCosts;
    var schedule :- Schedule(initial, inputs.residual, months, inputs.startDate);
    var total := initial - inputs.residual;
    var monthly := MonthlyDepreciation(initial, inputs.residual, months);
    Ok(Calculation(pv, inputs.directCosts, initial, schedule, total, monthly))
  }

  /** The summary's monthly figure, computed separately from the schedule,
      is the charge on every row, and the last row lands on the residual. */
  lemma SummaryAgreesWithSchedule(inputs: LeaseInputs)
    requires TermMonths(inputs.termYears) > 0
    ensures var r := Calculate(inputs);
            r.Ok? ==>
              && |r.value.schedule| == TermMonths(inputs.termYears)
              && r.value.schedule[|r.value.schedule| - 1].bookValue == Round2(inputs.residual)
              && forall m :: 0 <= m < |r.value.schedule| ==> r.value.schedule[m].depreciation == Round2(r.value.monthlyDepreciation)
  {
    var r := Calculate(inputs);
    if r.Ok? {
      ScheduleEndsAtResidual(r.value.initialValue, inputs.residual, TermMonths(inputs.termYears), inputs.startDate);
    }
  }

  /** The form's minimum term of 0.1 years already gives one month. */
  lemma FormTermHasAMonth(termYears: real)
    requires termYears >= 0.1
    ensures TermMonths(termYears) >= 1
  {
    assert termYears * 12.0 >= 1.2;
  }

  /** Inputs the form accepts never hit a division by zero; the present value
      stays between zero and the undiscounted payments, and the book values
      run down to the residual. */
  lemma FormInputsSucceed(inputs: LeaseInputs)
    requires FormBounds(inputs)
    ensures var r := Calculate(inputs);
            && r.Ok?
            && |r.value.schedule| >= 1
            && 0.0 <= r.value.presentValue
                   <= inputs.payment * PaidPeriods(inputs.termYears, PaymentsPerYear(inputs.frequency)) as real
            && r.value.schedule[|r.value.schedule| - 1].bookValue == Round2(inputs.residual)
  {
    FormTermHasAMonth(inputs.termYears);
    assert AnnualRate(inputs) >= 0.0;
    PresentValueBounds(inputs.payment, AnnualRate(inputs), PaymentsPerYear(inputs.frequency), inputs.termYears);
    var pv := PaymentsValue(inputs).value;
    var bound := inputs.payment * PaidPeriods(inputs.termYears, PaymentsPerYear(inputs.frequency)) as real;
    assert 0.0 <= pv <= bound;
    assert Calculate(inputs).Ok? && Calculate(inputs).value.presentValue == pv;
    SummaryAgreesWithSchedule(inputs);
  }

  /** With the asset worth at least its residual, the book value column
      never rises. */
  lemma BookValueNonIncreasing(inputs: LeaseInputs)
    requires TermMonths(inputs.termYears) > 0
    ensures var r := Calculate(inputs);
            r.Ok? && r.value.initialValue >= inputs.residual ==>
              forall i, j :: 0 <= i <= j < |r.value.schedule| ==> r.value.schedule[j].bookValue <= r.value.schedule[i].bookValue
  {
    var r := Calculate(inputs);
    if r.Ok? && r.value.initialValue >= inputs.residual {
      ScheduleNonIncreasing(r.value.initialValue, inputs.residual, TermMonths(inputs.termYears), inputs.startDate);
    }
  }

  /** The form's default lease: 100000 a year for 5 years at 5%, no residual
      and no direct costs. */
  lemma DefaultLease(start: int)
    ensures var r := Calculate(LeaseInputs(Annual, 100000.0, 5.0, start, 5.0, 0.0, 0.0));
            && r.Ok?
            && Round2(r.value.presentValue) == 432947.67
            && Round2(r.value.monthlyDepreciation) == 7215.79
            && |r.value.schedule| == 60
            && r.value.schedule[0] == Entry(start, 425731.87, 7215.79)
            && r.value.schedule[59] == Entry(start + 1770, 0.0, 7215.79)
  {
    var inputs := LeaseInputs(Annual, 100000.0, 5.0, start, 5.0, 0.0, 0.0);
    assert Periods(5.0, 1) == 5;
    var pv := Annuity(100000.0, 1.05, 5);
    assert pv == 1768202000000.0 / 4084101.0;
    assert PaymentsValue(inputs) == Ok(pv);
    assert TermMonths(5.0) == 60;
    var c := Calculate(inputs).value;
    assert c.presentValue == pv && c.initialValue == pv;
    var monthly := MonthlyDepreciation(pv, 0.0, 60);
    assert c.monthlyDepreciation == monthly == pv / 60.0;
    assert Round2(pv) == 432947.67;
    assert Round2(monthly) == 7215.79;
    assert Round2(pv - monthly) == 425731.87;
    Round2OfHundredths(0);
    assert pv - 60.0 * monthly == 0.0;
  }
}

=== FILE: depreciation.dfy ===
/** Straight-line depreciation of the right-of-use asset and the month-by-month
    schedule.  Dates are day numbers; a "month" is a fixed block of 30 days. */
module Depreciation {
  import opened Results
  import opened Numeric

  /** Equal share of `initial - residual` per month. */
  function MonthlyDepreciation(initial: real, residual: real, months: int): (r: real)
    requires months != 0
    ensures r * months as real == initial - residual
  {
    (initial - residual) / months as real
  }

  /** One row of the schedule: its date, the book value after that month's
      charge and the charge itself, both rounded to cents. */
  datatype Entry = Entry(date: int, bookValue: real, depreciation: real)

  /** The running book value of the schedule loop over `count` months: it
      starts at `current` and each month subtracts `monthly` before the row
      is written, so row k sees `current - (k + 1) * monthly`. */
  function RunningValues(current: real, monthly: real, count: nat): (s: seq<real>)
    ensures |s| == count
    ensures forall k :: 0 <= k < count ==> s[k] == current - (k + 1) as real * monthly
    decreases count
  {
    if count == 0 then []
    else
      var next := current - monthly;
      var rest := RunningValues(next, monthly, count - 1);
      assert forall k :: 0 <= k < |rest| ==> rest[k] == current - (k + 2) as real * monthly by {
        forall k | 0 <= k < |rest|
          ensures rest[k] == current - (k + 2) as real * monthly
        {
          assert (k + 2) as real * monthly == (k + 1) as real * monthly + monthly;
        }
      }
      [next] + rest
  }

  /** Number of rows: `range(months)` is empty for a non-positive count. */
  function RowCount(months: int): nat
  {
    if months > 0 then months else 0
  }

  /** `count` rows from day `start`: row m is dated `start + 30 * m` and shows
      the m-th running value and the monthly charge, each rounded to cents. */
  function Rows(initial: real, monthly: real, start: int, count: nat): (s: seq<Entry>)
    ensures |s| == count
    ensures forall m :: 0 <= m < count ==>
              && s[m].date == start + 30 * m
              && s[m].bookValue == Round2(initial - (m + 1) as real * monthly)
              && s[m].depreciation == Round2(monthly)
  {
    var values := RunningValues(initial, monthly, count);
    seq(count, m requires 0 <= m < count => Entry(start + 30 * m, Round2(values[m]), Round2(monthly)))
  }

  /** The schedule of `months` rows starting at day `start`.  Zero months is
      a division by zero, raised before any row is produced. */
  function Schedule(initial: real, residual: real, months: int, start: int): (r: Result<seq<Entry>>)
    ensures r.Err? <==> months == 0
    ensures r.Ok? ==> |r.value| == RowCount(months)
    ensures r.Ok? ==>
              var monthly := MonthlyDepreciation(initial, residual, months);
              forall m :: 0 <= m < |r.value| ==>
                && r.value[m].date == start + 30 * m
                && r.value[m].bookValue == Round2(initial - (m + 1) as real * monthly)
                && r.value[m].depreciation == Round2(monthly)
  {
    if months == 0 then Err(DivisionByZero)
    else Ok(Rows(initial, MonthlyDepreciation(initial, residual, months), start, RowCount(months)))
  }

  /** The unrounded running value after the last month is the residual, so
      the last row shows the residual rounded to cents. */
  lemma ScheduleEndsAtResidual(initial: real, residual: real, months: int, start: int)
    requires months > 0
    ensures var r := Schedule(initial, residual, months, start);
            r.Ok? && r.value[months - 1].bookValue == Round2(residual)
  {
    var monthly := MonthlyDepreciation(initial, residual, months);
    assert initial - months as real * monthly == residual;
  }

  lemma ChargeNonNegative(initial: real, residual: real, months: int)
    requires initial >= residual && months > 0
    ensures MonthlyDepreciation(initial, residual, months) >= 0.0
  {
  }

  lemma LaterIsSmaller(initial: real, monthly: real, i: int, j: int)
    requires monthly >= 0.0 && i <= j
    ensures initial - (j + 1) as real * monthly <= initial - (i + 1) as real * monthly
  {
    assert (j + 1) as real * monthly == (i + 1) as real * monthly + (j - i) as real * monthly;
  }

  /** With a non-negative charge the rounded book values never rise. */
  lemma RowsNonIncreasing(initial: real, monthly: real, start: int, count: nat)
    requires monthly >= 0.0
    ensures var s := Rows(initial, monthly, start, count);
            forall i, j :: 0 <= i <= j < count ==> s[j].bookValue <= s[i].bookValue
  {
    var s := Rows(initial, monthly, start, count);
    forall i, j | 0 <= i <= j < count
      ensures s[j].bookValue <= s[i].bookValue
    {
      var vj, vi := initial - (j + 1) as real * monthly, initial - (i + 1) as real * monthly;
      LaterIsSmaller(initial, monthly, i, j);
      assert vj <= vi;
      Round2Monotone(vj, vi);
    }
  }

  /** When the asset is worth at least its residual, book values never rise
      from one row to a later one. */
  lemma ScheduleNonIncreasing(initial: real, residual: real, months: int, start: int)
    requires initial >= residual && months > 0
    ensures var r := Schedule(initial, residual, months, start);
            r.Ok? && forall i, j :: 0 <= i <= j < |r.value| ==> r.value[j].bookValue <= r.value[i].bookValue
  {
    var monthly := MonthlyDepreciation(initial, residual, months);
    ChargeNonNegative(initial, residual, months);
    assert Schedule(initial, residual, months, start) == Ok(Rows(initial, monthly, start, months));
    RowsNonIncreasing(initial, monthly, start, months);
  }
}

=== FILE: numeric.dfy ===
/** The three pieces of Python numerics the calculator relies on, stated on
    exact reals: `int(x)` (truncation toward zero), `b ** t` for a whole
    exponent, and `round(x, 2)` (round half to even at two decimals). */
module Numeric {

  /** `int(x)`: drops the fractional part, moving toward zero. */
  function Trunc(x: real): (n: int)
    ensures 0.0 <= x ==> 0 <= n && n as real <= x < n as real + 1.0
    ensures x < 0.0 ==> n <= 0 && n as real - 1.0 < x <= n as real
  {
    if x >= 0.0 then x.Floor else -((-x).Floor)
  }

  /** `b ** n` for a natural exponent. */
  function Pow(b: real, n: nat): real
  {
    if n == 0 then 1.0 else b * Pow(b, n - 1)
  }

  lemma {:induction false} PowNonZero(b: real, n: nat)
    requires b != 0.0
    ensures Pow(b, n) != 0.0
  {
    if n > 0 {
      PowNonZero(b, n - 1);
    }
  }

  lemma {:induction false} PowPositive(b: real, n: nat)
    requires b > 0.0
    ensures Pow(b, n) > 0.0
  {
    if n > 0 {
      PowPositive(b, n - 1);
    }
  }

  lemma {:induction false} PowOfOne(n: nat)
    ensures Pow(1.0, n) == 1.0
  {
    if n > 0 {
      PowOfOne(n - 1);
    }
  }

  /** Powers of a base of at least one are at least one. */
  lemma {:induction false} PowAtLeastOne(b: real, n: nat)
    requires b >= 1.0
    ensures Pow(b, n) >= 1.0
  {
    if n > 0 {
      PowAtLeastOne(b, n - 1);
      assert b * Pow(b, n - 1) >= 1.0 * Pow(b, n - 1);
    }
  }

  /** On positive bases, a positive power is strictly increasing in the base. */
  lemma {:induction false} PowStrictlyIncreasing(b1: real, b2: real, n: nat)
    requires 0.0 < b1 < b2
    requires n >= 1
    ensures Pow(b1, n) < Pow(b2, n)
  {
    if n == 1 {
      assert Pow(b1, 0) == 1.0 && Pow(b2, 0) == 1.0;
    } else {
      PowStrictlyIncreasing(b1, b2, n - 1);
      var p1, p2 := Pow(b1, n - 1), Pow(b2, n - 1);
      PowPositive(b1, n - 1);
      assert Pow(b1, n) == b1 * p1 && Pow(b2, n) == b2 * p2;
      assert b1 * p1 < b2 * p1;
      assert b2 * p1 < b2 * p2;
    }
  }

  /** Nearest integer to `y`, ties going to the even neighbour. */
  function RoundHalfEven(y: real): (k: int)
    ensures -0.5 <= k as real - y <= 0.5
    ensures (k as real - y == 0.5 || y - k as real == 0.5) ==> k % 2 == 0
  {
    var f := y.Floor;
    var d := y - f as real;
    if d < 0.5 then f
    else if d > 0.5 then f + 1
    else if f % 2 == 0 then f
    else f + 1
  }

  /** `round(x, 2)`: the nearest multiple of 0.01, ties to the even hundredth. */
  function Round2(x: real): (r: real)
    ensures -0.005 <= r - x <= 0.005
    ensures (r * 100.0).Floor as real == r * 100.0
    ensures (r - x == 0.005 || x - r == 0.005) ==> (r * 100.0).Floor % 2 == 0
  {
    RoundHalfEven(x * 100.0) as real / 100.0
  }

  /** Rounding to the nearest integer never reverses an order. */
  lemma RoundHalfEvenMonotone(y1: real, y2: real)
    requires y1 <= y2
    ensures RoundHalfEven(y1) <= RoundHalfEven(y2)
  {
    var f1, f2 := y1.Floor, y2.Floor;
    if f1 < f2 {
      assert RoundHalfEven(y1) <= f1 + 1 <= f2 <= RoundHalfEven(y2);
    }
  }

  lemma Round2Monotone(x1: real, x2: real)
    requires x1 <= x2
    ensures Round2(x1) <= Round2(x2)
  {
    RoundHalfEvenMonotone(x1 * 100.0, x2 * 100.0);
  }

  /** A value that already has at most two decimals is left as it is. */
  lemma Round2OfHundredths(k: int)
    ensures Round2(k as real / 100.0) == k as real / 100.0
  {
    assert (k as real / 100.0) * 100.0 == k as real;
  }
}

=== FILE: present_value.dfy ===
/** Present value of the lease payments: an ordinary annuity of equal
    payments, each discounted to inception at the per-period rate. */
module Discounting {
  import opened Results
  import opened Numeric

  /** Number of payment periods: `int(term * frequency)`, so a fractional
      trailing period is dropped. */
  function Periods(termYears: real, frequency: int): int
  {
    Trunc(termYears * frequency as real)
  }

  /** How many payments the loop over `range(1, periods + 1)` discounts. */
  function PaidPeriods(termYears: real, frequency: int): nat
  {
    var n := Periods(termYears, frequency);
    if n > 0 then n else 0
  }

  /** Sum over t = 1..n of `payment / base^t`, accumulated in the order the
      payment loop adds its terms. */
  function Annuity(payment: real, base: real, n: nat): real
    requires base != 0.0
  {
    if n == 0 then 0.0
    else
      PowNonZero(base, n);
      Annuity(payment, base, n - 1) + payment / Pow(base, n)
  }

  /** Present value of `int(term * frequency)` end-of-period payments at
      `rate / frequency` per period.  Fails only when some period has to be
      discounted and the per-period factor `1 + rate / frequency` is zero. */
  function PresentValue(payment: real, rate: real, frequency: int, termYears: real): (r: Result<real>)
    ensures Periods(termYears, frequency) <= 0 ==> r == Ok(0.0)
    ensures r.Err? <==> Periods(termYears, frequency) >= 1 && rate == -(frequency as real)
    ensures r.Ok? && Periods(termYears, frequency) >= 1 ==>
              && frequency != 0
              && var base := 1.0 + rate / frequency as real;
                 base != 0.0 && r.value == Annuity(payment, base, Periods(termYears, frequency))
  {
    var n := Periods(termYears, frequency);
    if n <= 0 then Ok(0.0)
    else
      assert frequency != 0;
      var base := 1.0 + rate / frequency as real;
      if base == 0.0 then Err(DivisionByZero)
      else Ok(Annuity(payment, base, n))
  }

  /** With no discounting every payment counts at face value. */
  lemma {:induction false} AnnuityAtParIsPaymentTimesPeriods(payment: real, n: nat)
    ensures Annuity(payment, 1.0, n) == payment * n as real
  {
    if n > 0 {
      AnnuityAtParIsPaymentTimesPeriods(payment, n - 1);
      PowOfOne(n);
    }
  }

  /** Every discounted payment lies between zero and the payment itself. */
  lemma {:induction false} AnnuityBounds(payment: real, base: real, n: nat)
    requires payment >= 0.0 && base >= 1.0
    ensures 0.0 <= Annuity(payment, base, n) <= payment * n as real
  {
    if n > 0 {
      AnnuityBounds(payment, base, n - 1);
      PowAtLeastOne(base, n);
      var d := Pow(base, n);
      assert payment / d <= payment by {
        assert payment / d * d == payment;
        assert payment <= payment * d;
      }
    }
  }

  lemma DivideByLargerIsSmaller(payment: real, d1: real, d2: real)
    requires payment > 0.0 && 0.0 < d1 < d2
    ensures payment / d2 < payment / d1
  {
    var q1, q2 := payment / d1, payment / d2;
    assert q1 * d1 == payment && q2 * d2 == payment;
    assert q1 > 0.0 && q2 > 0.0;
    assert q2 * d1 < q2 * d2;
  }

  /** A larger positive discount base gives a strictly smaller annuity. */
  lemma {:induction false} AnnuityStrictlyDecreasingInBase(payment: real, b1: real, b2: real, n: nat)
    requires payment > 0.0 && 0.0 < b1 < b2 && n >= 1
    ensures Annuity(payment, b2, n) < Annuity(payment, b1, n)
  {
    if n > 1 {
      AnnuityStrictlyDecreasingInBase(payment, b1, b2, n - 1);
    }
    PowStrictlyIncreasing(b1, b2, n);
    PowPositive(b1, n);
    DivideByLargerIsSmaller(payment, Pow(b1, n), Pow(b2, n));
  }

  /** One step of the geometric-series induction, as plain algebra. */
  lemma GeometricStep(payment: real, base: real, a: real, t: real, p: real, q: real)
    requires q == base * p && t * q == payment
    requires a * (base - 1.0) * p == payment * (p - 1.0)
    ensures (a + t) * (base - 1.0) * q == payment * (q - 1.0)
  {
    var m := base - 1.0;
    calc {
      (a + t) * m * q;
      a * m * q + t * q * m;
      { assert t * q * m == payment * m; }
      a * m * q + payment * m;
      { assert a * m * q == (a * m * p) * base; }
      (a * m * p) * base + payment * m;
      payment * (p - 1.0) * base + payment * m;
      payment * (base * p - 1.0);
    }
  }

  /** The textbook annuity formula, multiplied out:
      `A * (b - 1) * b^n == payment * (b^n - 1)`. */
  lemma {:induction false} AnnuityGeometric(payment: real, base: real, n: nat)
    requires base != 0.0
    ensures Annuity(payment, base, n) * (base - 1.0) * Pow(base, n) == payment * (Pow(base, n) - 1.0)
  {
    if n > 0 {
      AnnuityGeometric(payment, base, n - 1);
      PowNonZero(base, n);
      var q := Pow(base, n);
      GeometricStep(payment, base, Annuity(payment, base, n - 1), payment / q, Pow(base, n - 1), q);
    }
  }

  /** Zero rate: the present value is `payment * int(term * frequency)` (zero
      when no whole period fits). */
  lemma ZeroRatePresentValue(payment: real, frequency: int, termYears: real)
    ensures var r := PresentValue(payment, 0.0, frequency, termYears);
            r.Ok? && r.value == payment * PaidPeriods(termYears, frequency) as real
  {
    var n := Periods(termYears, frequency);
    if n > 0 {
      assert 1.0 + 0.0 / frequency as real == 1.0;
      AnnuityAtParIsPaymentTimesPeriods(payment, n);
    }
  }

  /** Non-negative payment and rate: the present value never exceeds the
      undiscounted total and is never negative. */
  lemma PresentValueBounds(payment: real, rate: real, frequency: int, termYears: real)
    requires payment >= 0.0 && rate >= 0.0 && frequency > 0
    ensures var r := PresentValue(payment, rate, frequency, termYears);
            r.Ok? && 0.0 <= r.value <= payment * PaidPeriods(termYears, frequency) as real
  {
    var n := Periods(termYears, frequency);
    if n > 0 {
      assert rate / frequency as real >= 0.0;
      AnnuityBounds(payment, 1.0 + rate / frequency as real, n);
    }
  }

  /** Holding the other inputs fixed, a higher discount rate gives a strictly
      lower present value whenever at least one payment is discounted. */
  lemma PresentValueStrictlyDecreasingInRate(payment: real, rate1: real, rate2: real, frequency: int, termYears: real)
    requires payment > 0.0 && frequency > 0 && Periods(termYears, frequency) >= 1
    requires -(frequency as real) < rate1 < rate2
    ensures var r1, r2 := PresentValue(payment, rate1, frequency, termYears), PresentValue(payment, rate2, frequency, termYears);
            r1.Ok? && r2.Ok? && r2.value < r1.value
  {
    var f := frequency as real;
    var b1, b2 := 1.0 + rate1 / f, 1.0 + rate2 / f;
    assert rate1 / f > -1.0 by {
      assert (rate1 / f) * f == rate1;
    }
    assert rate1 / f < rate2 / f by {
      assert (rate1 / f) * f == rate1 && (rate2 / f) * f == rate2;
    }
    AnnuityStrictlyDecreasingInBase(payment, b1, b2, Periods(termYears, frequency));
  }

  /** The textbook annuity formula `payment * (1 - 1 / q) / i`, where `q` is
      `(1 + i)^n` for a per-period rate `i`. */
  function ClosedAnnuity(payment: real, i: real, q: real): real
    requires i != 0.0 && q != 0.0
  {
    payment * (1.0 - 1.0 / q) / i
  }

  /** Solving `a * i * q == payment * (q - 1)` for `a`. */
  lemma SolveForSum(payment: real, a: real, i: real, q: real)
    requires i != 0.0 && q != 0.0
    requires a * i * q == payment * (q - 1.0)
    ensures a == ClosedAnnuity(payment, i, q)
  {
    var c := payment * (1.0 - 1.0 / q);
    assert c * q == payment * (q - 1.0) by {
      assert (1.0 - 1.0 / q) * q == q - 1.0;
    }
    assert c * q == (a * i) * q;
    assert c == a * i;
  }

  /** The discounting sum agrees with the closed formula: for a per-period
      rate `i` other than 0 and -1, `A == payment * (1 - (1 + i)^-n) / i`. */
  lemma AnnuityClosedForm(payment: real, i: real, n: nat)
    requires i != 0.0 && i != -1.0
    ensures (PowNonZero(1.0 + i, n);
             Annuity(payment, 1.0 + i, n) == ClosedAnnuity(payment, i, Pow(1.0 + i, n)))
  {
    PowNonZero(1.0 + i, n);
    AnnuityGeometric(payment, 1.0 + i, n);
    var q, a := Pow(1.0 + i, n), Annuity(payment, 1.0 + i, n);
    assert (1.0 + i) - 1.0 == i;
    assert a * i * q == payment * (q - 1.0);
    SolveForSum(payment, a, i, q);
  }

  /** For a non-zero rate the result is the closed annuity formula
      `payment * (1 - (1 + i)^-n) / i` with `i = rate / frequency`. */
  lemma PresentValueClosedForm(payment: real, rate: real, frequency: int, termYears: real)
    requires frequency != 0 && rate != 0.0 && rate != -(frequency as real)
    requires Periods(termYears, frequency) >= 1
    ensures var n, i := Periods(termYears, frequency), rate / frequency as real;
            var r := PresentValue(payment, rate, frequency, termYears);
            i != 0.0 && (PowNonZero(1.0 + i, n); r.Ok? && r.value == ClosedAnnuity(payment, i, Pow(1.0 + i, n)))
  {
    var n, f := Periods(termYears, frequency), frequency as real;
    var i := rate / f;
    assert i * f == rate;
    assert i != 0.0;
    assert i != -1.0;
    var r := PresentValue(payment, rate, frequency, termYears);
    assert r == Ok(Annuity(payment, 1.0 + i, n));
    AnnuityClosedForm(payment, i, n);
  }
}

=== FILE: results.dfy ===
/** Failure values of the calculator.

    Apart from date overflow, on exact reals the calculator raises exactly one
    kind of error: a division by zero, either when the lease term truncates to
    zero months or when the per-period discount factor is zero.  It is
    modelled as a value instead of an exception.  Date overflow past year 9999
    and float overflow and underflow are not modelled. */
module Results {

  datatype Error = DivisionByZero

  datatype Result<+T> = Ok(value: T) | Err(error: Error) {

    predicate IsFailure() {
      Err?
    }

    function PropagateFailure<U>(): Result<U>
      requires Err?
    {
      Err(error)
    }

    function Extract(): T
      requires Ok?
    {
      value
    }
  }
}
